=== FILE: README.md ===
# TFTP stop-and-wait transfer, modelled in Dafny

This project models the transfer logic of a small TFTP client (`client.c`) and server
(`server.c`), which follow RFC 1350. Sockets and files are taken out. The network is a
list of events: a datagram arrives (`Recv`), or `recvfrom` fails (`Timeout`). A file is a
byte sequence, and the server's files are a map from name to contents. Every loop of the C
code is a recursive function folded over the event list. If the events run out before
the loop ends, the outcome is `Stalled`: the C program would still be blocked in
`recvfrom`.

Modules, leaf first:

- `Bytes` (`bytes.dfy`): octets, big-endian 16-bit fields (`htons`/`ntohs`), and the
  truncation of an `int` block counter to 16 bits.
- `Wire` (`wire.dfy`): the DATA and ACK packets, their wire form, and the header fields
  the loops read. Also how `recvfrom` cuts a datagram to its buffer, the events, and the
  outcomes.
- `Request` (`request.dfy`): the client's RRQ/WRQ layout (`send_request`), and the
  server's decoding of a request and its choice of handler (`main`).
- `Chunks` (`chunks.dfy`): cutting a file into reads of at most 512 bytes. This is the
  reference sequence of DATA packets that both senders are measured against.
- `Receiver` (`receiver.dfy`): the receive loop shared by client "get" (`receive_data`)
  and server WRQ (`handle_wrq`). Its state is the expected block, the bytes written so far
  and a done flag.
- `Sender` (`sender.dfy`): client "put" (`send_data`), with its ACK-0 handshake and its
  3-attempt ACK wait, and server RRQ (`handle_rrq`), with its single ACK wait.
- `Server` (`server.dfy`): one pass of the server's main loop.
- `Exchange` (`exchange.dfy`): the client and server composed over a loss-free network.

Quirks of the code that the model reproduces and proves:

- A file whose length is a multiple of 512 (0 included) never gets a short final DATA
  packet. The sender completes, but the receiver keeps waiting (`GetDeliversFile`,
  `PutStoresFile`). On the server, a stalled `handle_wrq` then reads the next request
  that arrives as a non-DATA packet and gives up, so that request is never served
  (`StalledPutSwallowsGet`).
- In `send_data`, a correct ACK on the third attempt still counts as failure. The counter
  is post-decremented in `while (retries-- > 0)` and then compared with `retries <= 0`
  (`AwaitAckSucceedsEarly`, `ThirdAttemptFails`).
- Neither sender ever retransmits. The client spends one attempt on each failed receive
  and on each ACK for another block. The server aborts on the first ACK for another block.
- The client drops any packet that is not the expected DATA. The server drops only DATA
  for another block, and aborts on any other opcode.
- No ACK opcode is ever checked. A DATA packet for block 0 completes the client's
  handshake just as ACK 0 does (`HandshakeIgnoresOpcode`).
- Senders put `block_num` through `htons`, so the block field wraps. But every comparison
  uses the unbounded `int`, so a block past 65535 can never be acknowledged. The loss-free
  lemmas therefore require fewer than 65536 blocks.

Where the code departs from RFC 1350, the model follows the code:

- Section 6 of RFC 1350 marks the end of a transfer with a DATA packet of 0 to 511 bytes,
  so a file whose length is a multiple of 512 ends with an empty DATA packet. Neither
  sender ever sends one.
- Section 2 of RFC 1350 lets the side that times out retransmit its last packet. Neither
  program ever retransmits anything.

## Model

| member | source | states |
|---|---|---|
| Bytes.Truncate16 | client.c:159 | `htons(block_num)` keeps the counter unchanged below 65536, and from there on gives a smaller number congruent to it modulo 65536 (the low 16 bits) |
| Bytes.Truncate16Wraps | server.c:80 | counters 65536 apart go on the wire as the same block number |
| Bytes.Field16RoundTrip | client.c:103 | reading a big-endian 16-bit field and writing it back with `htons` gives the same two octets, so an ACK that echoes the received block field repeats its octets |
| Wire.Encode | server.c:55-58 | an ACK is exactly 4 bytes, opcode 4 and then the block, both big-endian. A DATA packet is opcode 3, the block, then the payload. Reading the fields back returns the packet's block and payload |
| Wire.Received | client.c:85 | `recvfrom` into a buffer of `cap` bytes hands over a prefix of the datagram: all of it when it fits, exactly `cap` bytes when it does not |
| Wire.ReceivedKeepsHeader | client.c:85 | when `recvfrom` cuts a datagram to the 516-byte buffer, the opcode and block fields survive, and the payload is a prefix of the one sent |
| Request.EncodeRequest | client.c:51-66 | the request is `0`, the opcode's low byte, the file name, `0`, "octet", `0`, and its length is 2+\|name\|+1+5+1 |
| Request.CString | server.c:201 | the file name the server sees is the NUL-free run of bytes from offset 2 up to the first NUL, which lies inside the datagram |
| Request.Dispatch | server.c:199-216 | RRQ (bytes 0-1 big-endian) selects the read handler and WRQ the write handler, both with the C string at offset 2. Any other opcode is ignored |
| Request.RequestRoundTrip | client.c:55-66 | for an opcode below 256 and a NUL-free name, the server decodes the client's request to the same opcode and name, and picks the handler for that opcode |
| Request.WideOpcodeIsTruncated | client.c:57 | only the opcode's low byte is sent, so opcode 0x101 would reach the server as an RRQ. The client's main passes only RRQ and WRQ, so this is a property of the encoding alone |
| Chunks.Chunk | client.c:157 | each read is non-empty and at most 512 bytes. It is short exactly when it is the last read and the file length is not a multiple of 512 |
| Chunks.Read | server.c:78 | `fread` of up to 512 bytes returns a prefix of what is left. It is empty only at end of file, and otherwise it is the first block of the rest |
| Chunks.Reassemble | server.c:78-107 | the blocks the senders read partition the file: concatenated, they are the file |
| Chunks.NoShortBlock | client.c:199-202 | when the file length is a multiple of 512, every DATA packet is full, so none signals the end |
| Chunks.LastBlockShort | server.c:103-106 | otherwise exactly the last DATA packet is short |
| Receiver.Step | client.c:92-112 | a datagram is accepted iff it is DATA for the expected block. Accepting it appends its payload (at most 512 bytes), ACKs the same block, and either ends the loop (short packet) or expects the next block. A datagram longer than 516 bytes is cut to its first 512 payload bytes, so it counts as a full block and the loop goes on. The server aborts iff the opcode is not DATA. Acceptance keeps the invariant that the file holds 512 bytes per earlier block |
| Receiver.Run | client.c:83-113 | the loop ends iff a short block was accepted. ACKs go out for consecutive blocks from the expected one, the file only grows, the invariant is kept, and only a receive failure (or, on the server, a non-DATA packet) aborts. A failed receive ends the loop at once, with nothing more written or acknowledged |
| Receiver.RunAfterStall | client.c:83-113 | a loop still blocked in `recvfrom` when one batch of events runs out carries on with the next batch from the state it reached, its later ACKs following the earlier ones |
| Receiver.RunAfterAccept | client.c:98-112 | an accepted block's write and ACK come before everything the rest of the loop does |
| Receiver.DroppedDatagramIsInvisible | client.c:92-95 | a dropped datagram writes nothing, sends no ACK and leaves the expected block unchanged: the run is the same without it |
| Receiver.DropCases | server.c:135-144 | the client drops every non-matching packet. The server drops only DATA for another block |
| Receiver.ServerAbortsOnOtherOpcode | server.c:135-139 | on a non-DATA packet, `handle_wrq` stops with nothing more written or acknowledged |
| Receiver.ReceiveData | client.c:71-116 | `receive_data` expects block 1 first, ACKs blocks 1, 2, … in order, keeps the file invariant, and never aborts on an opcode |
| Receiver.HandleWrq | server.c:113-163 | `handle_wrq` sends ACK 0 before anything else, then ACKs 1, 2, … in order |
| Sender.AwaitAck | client.c:171-187 | the wait only ever lowers the counter and consumes a prefix of the events, exactly one per attempt, and it ends whenever there are at least as many events as attempts. When it ends, it has stopped at the first matching ACK: every event it used before the last one is not a match, and it leaves with a positive counter only right after a matching ACK. When the counter ends below zero, none of the events it used was a match |
| Sender.AwaitAckStalls | client.c:172-187 | the wait is left blocked in `recvfrom` exactly when the events run out first: fewer events than attempts, and none of them a matching ACK |
| Sender.AwaitAckSucceedsEarly | client.c:171-194 | with r attempts, the wait succeeds iff one of the first r-1 events is a matching ACK: a match on the last attempt is failure |
| Sender.AckBudget | client.c:171-194 | with the budget of 3, a block is acknowledged iff a matching ACK is the first or second event |
| Sender.RetriesExhaustedAborts | client.c:171-194 | when neither of the first two attempts brings a matching ACK (three timeouts, say), `send_data` gives up after one DATA packet, whatever the third attempt brings |
| Sender.ThirdAttemptFails | client.c:172-194 | two misses followed by the right ACK abort the transfer after one DATA packet |
| Sender.SecondAttemptSucceeds | client.c:172-186 | one miss followed by the right ACK gives the same run as an immediate ACK |
| Sender.ClientLoop | client.c:157-203 | `send_data` sends a prefix of the file's DATA packets (blocks counting up, each the next read). It completes only after sending all of them, and its only abort is an exhausted retry budget |
| Sender.SendData | client.c:142-206 | no DATA goes out before a first reply carrying block 0. A first receive failure or a first reply with another block number ends the transfer with nothing sent. What is sent is a prefix of the file's DATA packets, all of them on completion |
| Sender.HandshakeIgnoresOpcode | client.c:143-153 | the handshake looks only at the block field, never at the opcode |
| Sender.ServerLoop | server.c:78-107 | `handle_rrq` sends a prefix of the file's DATA packets, at most one more than the events it was given. It completes only with all of them, and aborts only on a receive error or a wrong ACK. A failed receive right after a DATA packet ends the transfer there |
| Sender.HandleRrq | server.c:66-110 | `handle_rrq` numbers blocks from 1 with no priming ACK, and on completion has sent all of the file's DATA packets |
| Sender.ServerAbortsOnOtherAck | server.c:92-96 | an ACK for another block ends the whole transfer right after the DATA packet it answers |
| Sender.EmptyFileSendsNothing | client.c:157 | an empty file: both senders complete without sending any DATA |
| Sender.ServerSendsAll | server.c:78-107 | when each block is acknowledged in turn, `handle_rrq` sends exactly the file's DATA packets and completes |
| Sender.ClientSendsAll | client.c:157-203 | when each block is acknowledged at the first attempt, `send_data` sends exactly the file's DATA packets and completes |
| Server.Serve | server.c:190-217 | a request with another opcode gets no reply. An RRQ leaves the files unchanged and sends a prefix of the named file's DATA packets, or fails if the file is missing. A WRQ replaces only the named file and starts with ACK 0 |
| Exchange.ReceiveFile | server.c:128-160 | fed the DATA packets of a file, either receive loop writes exactly the file, ACKs every block once, and completes iff the length is not a multiple of 512. Otherwise it keeps waiting |
| Exchange.GetDeliversFile | client.c:258-260 | get over a loss-free network: the server completes, the client hands exactly the file to `fwrite`, and the client completes iff the length is not a multiple of 512 |
| Exchange.PutStoresFile | client.c:261-263 | put over a loss-free network: the client completes, the server hands exactly the file to `fwrite` for that name, leaving the other files alone, and the server completes iff the length is not a multiple of 512 |
| Exchange.StalledPutSwallowsGet | server.c:128-139 | after a put whose length is a multiple of 512, the RRQ of a later get reaches the still-running `handle_wrq`, which gives up on it as a non-DATA packet: the RRQ is never served |
| Exchange.PutThenGet | client.c:258-263 | after a put that completes (length not a multiple of 512), a later get of the same name, served by the server from the map the put left, completes and hands the client exactly the file that was put |

## Left out

- Sockets, `sendto` and `recvfrom`, and the peer address and port that `recvfrom`
  overwrites (client.c:85, client.c:173, server.c:87, server.c:130, server.c:192). The
  network is an event list, and every reply goes to "the peer".
- The 2-second `SO_RCVTIMEO` timer that `send_data` sets (client.c:131-140). It is real
  time, so it appears only as a `Timeout` event. `receive_data` and the server set no
  timer, so for them a `Timeout` stands for a plain receive error.
- Errors from `sendto` (client.c:161-166, server.c:59-61), `fread` and `fwrite`: file and
  socket I/O are assumed to succeed. Only the RRQ open failure (the name is not in the
  file map) is modelled, as `OpenFailed`. Opening a file for writing always succeeds, and
  the client's local file is passed in as a byte sequence.
- Process exit versus return. In the client, every failure of `send_data` calls `exit`,
  but `receive_data` returns after an open or receive failure (client.c:73-76, 86-90) and
  `main` then returns 0. In the server, `handle_error` ends the process (receive errors
  and open failures), while a wrong ACK block or a non-DATA packet only returns to the
  main loop. The model reports all of them as `Aborted` with a cause.
- Datagrams shorter than 4 bytes are excluded by the `Datagram` type. The C code would
  read a stale header or pass a negative length to `fwrite`.
- Requests longer than 516 bytes. The server receives a request into a 516-byte buffer
  (server.c:191-192), but `Serve` decodes the whole request. For a request whose first
  NUL after offset 2 lies at index 516 or later, the model finds a file name, while the C
  code reads past the buffer.
- Requests with no NUL after offset 2 are excluded by `Dispatch`'s precondition. The C
  code would read past the datagram into a stale buffer.
- The mode string: the server reads it at the fixed struct offset 102, not after the file
  name, and only prints it (server.c:202-204). It is not modelled.
- `get_input` and the prompting in the client's `main` (client.c:209-256). The end-to-end
  lemmas start from the request that `main` sends for "get" or "put".
- `printf` logging, and the ERROR packet structs, which are never built or parsed.
- Concurrency and multiple sessions: the code has none. Path sanitisation: the code has
  none. The TCP echo server in the same repository is not part of this model.
- The server's endless main loop: `Serve` models one pass, that is, one request handled
  to the end.
- Server.Serve: for a WRQ, the contract states only that at least 512 bytes were stored
  per acknowledged block except the last. The exact contents are stated for the
  loss-free case by `PutStoresFile`.
- Exchange.GetDeliversFile: the client's file is the bytes handed to `fwrite`. When the
  client is left waiting (a length that is a multiple of 512), `receive_data` never
  reaches `fclose` (client.c:115), so whether the last buffered bytes reach the disk is
  not modelled.
- Exchange.PutStoresFile: likewise, the server's stored file is the bytes handed to
  `fwrite`. A `handle_wrq` left waiting never reaches `fclose` (server.c:162).

=== FILE: bytes.dfy ===
/** Octets, big-endian 16-bit fields and the size constants both programs share. */
module Bytes {

  type byte = b: int | 0 <= b < 0x100

  type uint16 = n: int | 0 <= n < 0x1_0000

  /** TFTP_BLOCK_SIZE: the payload of a full DATA packet. */
  const BlockSize: nat := 512

  /** MAX_BUF_SIZE, also sizeof(struct tftp_data_packet): a 4-byte header and a full block. */
  const MaxPacket: nat := 516

  /** `htons` applied to a block counter held in an `int`: only the low 16 bits survive. */
  function Truncate16(n: nat): (r: uint16)
    ensures n < 0x1_0000 ==> r == n
    ensures n >= 0x1_0000 ==> r < n
    ensures (n - r) % 0x1_0000 == 0
  {
    n % 0x1_0000
  }

  /** The field wraps: counters 65536 apart go on the wire as the same block number. */
  lemma Truncate16Wraps(n: nat)
    ensures Truncate16(n + 0x1_0000) == Truncate16(n)
  {
  }

  /** `ntohs` of the field that starts at offset `i`. */
  function Field16(d: seq<byte>, i: nat): uint16
    requires i + 2 <= |d|
  {
    (d[i] as int) * 0x100 + d[i + 1] as int
  }

  /** The two octets, most significant first, that carry `n` on the wire. */
  function U16(n: uint16): (r: seq<byte>)
    ensures |r| == 2
    ensures Field16(r, 0) == n
  {
    [n / 0x100, n % 0x100]
  }

  /** Reading a field and writing it back reproduces the two octets. */
  lemma Field16RoundTrip(d: seq<byte>, i: nat)
    requires i + 2 <= |d|
    ensures U16(Field16(d, i)) == d[i..i + 2]
  {
    var n := Field16(d, i);
    assert n / 0x100 == d[i];
    assert n % 0x100 == d[i + 1];
  }
}

=== FILE: chunks.dfy ===
/**
  How a sender cuts a file into blocks: `fread` of at most 512 bytes at a time, one DATA
  packet per non-empty read, block numbers counting up from 1.
 */
module Chunks {
  import opened Bytes
  import opened Wire

  /** The number of non-empty reads of a file of `n` bytes, i.e. of DATA packets sent for it. */
  function ChunkCount(n: nat): nat
  {
    (n + BlockSize - 1) / BlockSize
  }

  /** Every block but the last is full, and the last one is not empty. */
  lemma ChunkCountBounds(n: nat)
    ensures n == 0 <==> ChunkCount(n) == 0
    ensures n > 0 ==> BlockSize * (ChunkCount(n) - 1) < n <= BlockSize * ChunkCount(n)
    ensures n % BlockSize == 0 <==> n == BlockSize * ChunkCount(n)
  {
    var k := ChunkCount(n);
    assert (n + 511) == 512 * k + (n + 511) % 512;
    assert n % 512 == 0 ==> n == 512 * (n / 512);
  }

  /** The `i`-th block of `f`: from offset 512*i to the next boundary or the end of the file. */
  function Chunk(f: seq<byte>, i: nat): (c: seq<byte>)
    requires i < ChunkCount(|f|)
    ensures 0 < |c| <= BlockSize
    ensures |c| < BlockSize <==> i == ChunkCount(|f|) - 1 && |f| % BlockSize != 0
  {
    ChunkCountBounds(|f|);
    var lo := BlockSize * i;
    var hi := if BlockSize * (i + 1) <= |f| then BlockSize * (i + 1) else |f|;
    f[lo..hi]
  }

  /** fread(buf, 1, 512, file) at the current position: the next block, or nothing at end of file. */
  function Read(rest: seq<byte>): (c: seq<byte>)
    ensures c <= rest
    ensures |rest| == 0 <==> |c| == 0
    ensures |rest| > 0 ==> c == Chunk(rest, 0)
  {
    ChunkCountBounds(|rest|);
    if |rest| <= BlockSize then rest else rest[..BlockSize]
  }

  /** Dropping the first full block shifts every later block down by one. */
  lemma ChunkShift(f: seq<byte>, i: nat)
    requires |f| > BlockSize
    ensures ChunkCount(|f| - BlockSize) == ChunkCount(|f|) - 1
    ensures i < ChunkCount(|f| - BlockSize) ==> Chunk(f, i + 1) == Chunk(f[BlockSize..], i)
  {
    assert (|f| - BlockSize + BlockSize - 1) / BlockSize == (|f| + BlockSize - 1) / BlockSize - 1;
  }

  /** The blocks of `f` in order. */
  function Blocks(f: seq<byte>): (cs: seq<seq<byte>>)
    ensures |cs| == ChunkCount(|f|)
  {
    seq(ChunkCount(|f|), i requires 0 <= i < ChunkCount(|f|) => Chunk(f, i))
  }

  function Concat(cs: seq<seq<byte>>): seq<byte>
  {
    if |cs| == 0 then [] else cs[0] + Concat(cs[1..])
  }

  /** The blocks partition the file: put back together, they give the file. */
  lemma {:induction false} Reassemble(f: seq<byte>)
    ensures Concat(Blocks(f)) == f
    decreases |f|
  {
    ChunkCountBounds(|f|);
    if |f| > 0 {
      var cs := Blocks(f);
      if |f| <= BlockSize {
        assert ChunkCount(|f|) == 1;
        assert cs[0] == f;
        assert Concat(cs[1..]) == [];
      } else {
        var tail := f[BlockSize..];
        Reassemble(tail);
        ChunkShift(f, 0);
        assert cs[1..] == Blocks(tail) by {
          forall i | 0 <= i < |cs[1..]|
            ensures cs[1..][i] == Blocks(tail)[i]
          {
            ChunkShift(f, i);
          }
        }
        assert cs[0] == f[..BlockSize];
        assert f == f[..BlockSize] + tail;
      }
    }
  }

  /** The DATA packets of `f` numbered from `first`; the block field keeps only the counter's low 16 bits. */
  function DataPackets(f: seq<byte>, first: nat): (ps: seq<Packet>)
    ensures |ps| == ChunkCount(|f|)
    ensures forall i :: 0 <= i < |ps| ==> ps[i] == Data(Truncate16(first + i), Chunk(f, i))
  {
    seq(ChunkCount(|f|), i requires 0 <= i < ChunkCount(|f|) => Data(Truncate16(first + i), Chunk(f, i)))
  }

  /** The first DATA packet carries the first read; the rest are the packets of what is left. */
  lemma DataPacketsUnfold(f: seq<byte>, first: nat)
    requires |f| > 0
    ensures DataPackets(f, first) == [Data(Truncate16(first), Read(f))] + DataPackets(f[|Read(f)|..], first + 1)
  {
    ChunkCountBounds(|f|);
    var ps := DataPackets(f, first);
    var rest := f[|Read(f)|..];
    if |f| <= BlockSize {
      assert ChunkCount(|f|) == 1;
      assert |rest| == 0;
    } else {
      ChunkShift(f, 0);
      var qs := DataPackets(rest, first + 1);
      forall i | 0 <= i < |qs|
        ensures ps[i + 1] == qs[i]
      {
        ChunkShift(f, i);
      }
      assert ps == [ps[0]] + qs;
    }
  }

  /** A file whose length is a multiple of 512 (0 included) gets no short block, so nothing marks its end. */
  lemma NoShortBlock(f: seq<byte>, first: nat)
    requires |f| % BlockSize == 0
    ensures forall i :: 0 <= i < |DataPackets(f, first)| ==> |DataPackets(f, first)[i].payload| == BlockSize
  {
  }

  /** A file of any other length ends with exactly one short block, its last. */
  lemma LastBlockShort(f: seq<byte>, first: nat)
    requires |f| % BlockSize != 0
    ensures var ps := DataPackets(f, first);
      |ps| > 0 && |ps[|ps| - 1].payload| < BlockSize
      && forall i :: 0 <= i < |ps| - 1 ==> |ps[i].payload| == BlockSize
  {
    ChunkCountBounds(|f|);
  }
}

=== FILE: exchange.dfy ===
/**
  Client and server together over a loss-free network: what the receiving side ends up
  with for a given file, and whether each side considers the transfer finished.
  In each lemma the DATA packets one side sends are exactly the events the other side
  receives, and the other way round for the ACKs, so the two runs describe one exchange.
 */
module Exchange {
  import opened Bytes
  import opened Wire
  import opened Request
  import opened Chunks
  import opened Receiver
  import opened Sender
  import opened Server

  /** How the block count and the length modulo 512 change when the first read is taken off. */
  lemma FirstBlockArithmetic(f: seq<byte>)
    requires |f| > 0
    ensures |Read(f)| < BlockSize ==> ChunkCount(|f|) == 1 && |f| % BlockSize != 0
    ensures |Read(f)| == BlockSize ==>
      ChunkCount(|f| - BlockSize) == ChunkCount(|f|) - 1 && (|f| - BlockSize) % BlockSize == |f| % BlockSize
  {
    ChunkCountBounds(|f|);
    if |f| > BlockSize {
      ChunkShift(f, 0);
    }
  }

  /** The events a loss-free channel delivers for the packets of `f`: the first read, then the rest. */
  lemma DeliverUnfold(f: seq<byte>, b: nat)
    requires |f| > 0 && b < 0x1_0000
    ensures Deliver(DataPackets(f, b))
      == [Recv(Encode(Data(b, Read(f))))] + Deliver(DataPackets(f[|Read(f)|..], b + 1))
  {
    DataPacketsUnfold(f, b);
    var events := Deliver(DataPackets(f, b));
    assert events[1..] == Deliver(DataPackets(f[|Read(f)|..], b + 1));
  }

  /** The DATA packet of the expected block is accepted, written out and acknowledged. */
  lemma AcceptsExpectedBlock(role: Role, chunk: seq<byte>, b: nat, w: seq<byte>)
    requires 0 < |chunk| <= BlockSize && b < 0x1_0000
    ensures Step(role, RecvState(b, w, false), Encode(Data(b, chunk)))
      == Accept(RecvState(if |chunk| < BlockSize then b else b + 1, w + chunk, |chunk| < BlockSize), Ack(b))
  {
    var d := Encode(Data(b, chunk));
    assert |d| == 4 + |chunk| <= MaxPacket;
  }

  /** The receive loop takes the first DATA packet of `f` and carries on with the packets of the rest. */
  lemma ReceiveFirstBlock(role: Role, f: seq<byte>, b: nat, w: seq<byte>)
    requires |f| > 0 && b < 0x1_0000
    ensures var chunk := Read(f);
      var next := RecvState(if |chunk| < BlockSize then b else b + 1, w + chunk, |chunk| < BlockSize);
      var later := Run(role, next, Deliver(DataPackets(f[|chunk|..], b + 1)));
      Run(role, RecvState(b, w, false), Deliver(DataPackets(f, b)))
        == RecvRun(later.final, [Ack(b)] + later.acks, later.outcome)
  {
    var chunk := Read(f);
    DeliverUnfold(f, b);
    AcceptsExpectedBlock(role, chunk, b, w);
    RunAfterAccept(role, RecvState(b, w, false), Encode(Data(b, chunk)), Deliver(DataPackets(f[|chunk|..], b + 1)));
  }

  /** An empty file has no DATA packets, and the loop is left waiting for block `b`. */
  lemma ReceiveNothing(role: Role, f: seq<byte>, b: nat, w: seq<byte>)
    requires |f| == 0
    ensures ChunkCount(|f|) == 0 && Deliver(DataPackets(f, b)) == []
    ensures Run(role, RecvState(b, w, false), []) == RecvRun(RecvState(b, w, false), [], Stalled)
  {
    ChunkCountBounds(|f|);
  }

  /** A file that fits in one short block is received in one step, and the loop completes. */
  lemma ReceiveLastBlock(role: Role, f: seq<byte>, b: nat, w: seq<byte>)
    requires 0 < |f| < BlockSize && 1 <= b < 0x1_0000
    ensures var r := Run(role, RecvState(b, w, false), Deliver(DataPackets(f, b)));
      r == RecvRun(RecvState(b, w + f, true), [Ack(b)], Complete)
      && ChunkCount(|f|) == 1 && |f| % BlockSize != 0
  {
    FirstBlockArithmetic(f);
    ReceiveFirstBlock(role, f, b, w);
  }

  /**
    What a receive run `r` looks like when it was fed the DATA packets of `f` numbered
    from `b` onto a file holding `w`: it appended exactly `f`, acknowledged every block
    once, and finished exactly when the last block was short; otherwise it is left
    waiting for a block that never comes.
   */
  ghost predicate ReceivedAs(r: RecvRun, f: seq<byte>, b: nat, w: seq<byte>)
    requires b + ChunkCount(|f|) <= 0x1_0000
  {
    && r.final.written == w + f
    && r.acks == AckRange(b, ChunkCount(|f|))
    && (r.outcome == Complete <==> |f| % BlockSize != 0)
    && (r.outcome == Stalled <==> |f| % BlockSize == 0)
  }

  /** Fed the DATA packets of `f` numbered from `b`, the receive loop (either role) receives `f`. */
  ghost predicate ReceivesFile(role: Role, f: seq<byte>, b: nat, w: seq<byte>)
    requires b + ChunkCount(|f|) <= 0x1_0000
  {
    ReceivedAs(Run(role, RecvState(b, w, false), Deliver(DataPackets(f, b))), f, b, w)
  }

  /** Putting a full first block's write and ACK in front of a run that received the rest. */
  lemma PrependFullBlock(later: RecvRun, f: seq<byte>, b: nat, w: seq<byte>)
    requires |f| >= BlockSize && 1 <= b && b + ChunkCount(|f|) <= 0x1_0000
    requires |Read(f)| == BlockSize
    requires ChunkCount(|f| - BlockSize) == ChunkCount(|f|) - 1
    requires (|f| - BlockSize) % BlockSize == |f| % BlockSize
    requires ReceivedAs(later, f[BlockSize..], b + 1, w + Read(f))
    ensures ReceivedAs(RecvRun(later.final, [Ack(b)] + later.acks, later.outcome), f, b, w)
  {
    var n := ChunkCount(|f|);
    assert w + f == (w + Read(f)) + f[BlockSize..];
    AckRangeUnfold(b, n);
  }

  /** Receiving a full first block and then the rest of the file is receiving the whole file. */
  lemma ReceiveFullBlock(role: Role, f: seq<byte>, b: nat, w: seq<byte>)
    requires |f| >= BlockSize && 1 <= b && b + ChunkCount(|f|) <= 0x1_0000
    requires |Read(f)| == BlockSize
    requires ChunkCount(|f| - BlockSize) == ChunkCount(|f|) - 1
    requires ReceivesFile(role, f[BlockSize..], b + 1, w + Read(f))
    ensures ReceivesFile(role, f, b, w)
  {
    var chunk := Read(f);
    var later := Run(role, RecvState(b + 1, w + chunk, false), Deliver(DataPackets(f[BlockSize..], b + 1)));
    assert Run(role, RecvState(b, w, false), Deliver(DataPackets(f, b)))
      == RecvRun(later.final, [Ack(b)] + later.acks, later.outcome) by {
      ReceiveFirstBlock(role, f, b, w);
    }
    FirstBlockArithmetic(f);
    PrependFullBlock(later, f, b, w);
  }

  lemma {:induction false} ReceiveFile(role: Role, f: seq<byte>, b: nat, w: seq<byte>)
    requires 1 <= b && b + ChunkCount(|f|) <= 0x1_0000
    ensures ReceivesFile(role, f, b, w)
    decreases |f|
  {
    if |f| == 0 {
      ReceiveNothing(role, f, b, w);
    } else if |Read(f)| < BlockSize {
      ReceiveLastBlock(role, f, b, w);
    } else {
      FirstBlockArithmetic(f);
      ReceiveFile(role, f[BlockSize..], b + 1, w + Read(f));
      ReceiveFullBlock(role, f, b, w);
    }
  }

  /**
    "get": the client sends an RRQ for `name`, the server dispatches it and sends the
    stored file, and the client acknowledges each block. The server completes, the
    client holds the file, and the client itself completes exactly when the file's
    length is not a multiple of 512 (empty files included): otherwise it keeps waiting
    for a final short block the server never sends.
   */
  lemma GetDeliversFile(name: seq<byte>, files: map<seq<byte>, seq<byte>>)
    requires NoNul(name) && 2 + |name| + 1 + |Octet| + 1 <= MaxPacket
    requires name in files && ChunkCount(|files[name]|) < 0x1_0000
    ensures var request := EncodeRequest(RRQ, name);
      var f := files[name];
      var client := ReceiveData(Deliver(DataPackets(f, 1)));
      && |request| >= 2 && HasNulFrom(request, 2)
      && Serve(request, files, Deliver(client.acks)) == Served(files, DataPackets(f, 1), Complete)
      && client.final.written == f
      && (client.outcome == Complete <==> |f| % BlockSize != 0)
      && (client.outcome == Stalled <==> |f| % BlockSize == 0)
  {
    var request := EncodeRequest(RRQ, name);
    var f := files[name];
    RequestRoundTrip(RRQ, name);
    assert Dispatch(request) == ServeRead(name);
    ReceiveFile(ClientGet, f, 1, []);
    ServerSendsAll(f, 1);
  }

  /**
    "put": the client sends a WRQ for `name`, the server primes it with ACK 0 and
    stores what arrives. The client completes, the server's file holds exactly `f`,
    and the server completes exactly when the length of `f` is not a multiple of 512.
   */
  lemma PutStoresFile(name: seq<byte>, files: map<seq<byte>, seq<byte>>, f: seq<byte>)
    requires NoNul(name) && 2 + |name| + 1 + |Octet| + 1 <= MaxPacket
    requires ChunkCount(|f|) < 0x1_0000
    ensures var request := EncodeRequest(WRQ, name);
      var server := Serve(request, files, Deliver(DataPackets(f, 1)));
      && |request| >= 2 && HasNulFrom(request, 2) && server.Served?
      && SendData(f, Deliver(server.sent)) == SendRun(DataPackets(f, 1), Complete)
      && server.files == files[name := f]
      && (server.outcome == Complete <==> |f| % BlockSize != 0)
      && (server.outcome == Stalled <==> |f| % BlockSize == 0)
  {
    var request := EncodeRequest(WRQ, name);
    var n := ChunkCount(|f|);
    RequestRoundTrip(WRQ, name);
    assert Dispatch(request) == ServeWrite(name);
    ReceiveFile(ServerWrq, f, 1, []);
    var run := Run(ServerWrq, Start, Deliver(DataPackets(f, 1)));
    assert run.final.written == f;
    var server := Serve(request, files, Deliver(DataPackets(f, 1)));
    assert server == Served(files[name := f], [Ack(0)] + run.acks, run.outcome);
    assert server.sent == [Ack(0)] + AckRange(1, n);
    var events := Deliver(server.sent);
    assert events[0] == Recv(Encode(Ack(0)));
    assert events[1..] == Deliver(AckRange(1, n));
    ClientSendsAll(f, 1);
  }

  /**
    A put whose length is a multiple of 512 leaves handle_wrq waiting on the server's one
    socket. The next request to arrive there, say the RRQ of a later get of the same name,
    is read by handle_wrq as a packet that is not DATA: the handler gives up, and that
    request is never dispatched.
   */
  lemma StalledPutSwallowsGet(name: seq<byte>, files: map<seq<byte>, seq<byte>>, f: seq<byte>)
    requires NoNul(name) && 2 + |name| + 1 + |Octet| + 1 <= MaxPacket
    requires ChunkCount(|f|) < 0x1_0000 && |f| % BlockSize == 0
    ensures var put := EncodeRequest(WRQ, name);
      var get := EncodeRequest(RRQ, name);
      && |put| >= 2 && HasNulFrom(put, 2) && |get| >= 4
      && Serve(put, files, Deliver(DataPackets(f, 1)) + [Recv(get)])
        == Served(files[name := f], [Ack(0)] + AckRange(1, ChunkCount(|f|)), Aborted(UnexpectedOpcode))
  {
    var put := EncodeRequest(WRQ, name);
    var get: Datagram := EncodeRequest(RRQ, name);
    var n := ChunkCount(|f|);
    var events := Deliver(DataPackets(f, 1));
    var first := Run(ServerWrq, Start, events);
    assert first.final.written == f && first.acks == AckRange(1, n) && first.outcome == Stalled by {
      ReceiveFile(ServerWrq, f, 1, []);
      assert [] + f == f;
    }
    assert Run(ServerWrq, Start, events + [Recv(get)])
      == RecvRun(first.final, first.acks, Aborted(UnexpectedOpcode)) by {
      RunAfterStall(ServerWrq, Start, events, [Recv(get)]);
      RequestRoundTrip(RRQ, name);
      assert Opcode(get) == RRQ;
      ServerAbortsOnOtherOpcode(first.final, get, []);
      assert [Recv(get)] + [] == [Recv(get)];
      assert first.acks + [] == first.acks;
    }
    assert Dispatch(put) == ServeWrite(name) by {
      RequestRoundTrip(WRQ, name);
    }
  }

  /**
    A file put under some name comes back unchanged from a later get of that name. This
    needs a put that completes (a length that is not a multiple of 512): otherwise the
    server is still inside handle_wrq when the get's request arrives.
   */
  lemma PutThenGet(name: seq<byte>, files: map<seq<byte>, seq<byte>>, f: seq<byte>)
    requires NoNul(name) && 2 + |name| + 1 + |Octet| + 1 <= MaxPacket
    requires ChunkCount(|f|) < 0x1_0000 && |f| % BlockSize != 0
    ensures var put := Serve(EncodeRequest(WRQ, name), files, Deliver(DataPackets(f, 1)));
      && put.Served? && put.outcome == Complete && name in put.files
      && var sent := DataPackets(put.files[name], 1);
      var client := ReceiveData(Deliver(sent));
      && |EncodeRequest(RRQ, name)| >= 2 && HasNulFrom(EncodeRequest(RRQ, name), 2)
      && Serve(EncodeRequest(RRQ, name), put.files, Deliver(client.acks)) == Served(put.files, sent, Complete)
      && client.final.written == f && client.outcome == Complete
  {
    PutStoresFile(name, files, f);
    var put := Serve(EncodeRequest(WRQ, name), files, Deliver(DataPackets(f, 1)));
    GetDeliversFile(name, put.files);
  }
}

=== FILE: receiver.dfy ===
/**
  The receiving side of a transfer, shared by the client's "get" (receive_data) and the
  server's answer to a WRQ (handle_wrq): wait for the DATA packet with the expected
  block number, append its payload, acknowledge it, and stop after a short packet.
 */
module Receiver {
  import opened Bytes
  import opened Wire

  /** Which program is receiving; they differ in how they treat a packet that is not DATA. */
  datatype Role = ClientGet | ServerWrq

  /**
    The loop's state: the expected block number (an `int` compared with the 16-bit field,
    so it never wraps), the bytes written to the file so far, and whether the loop has left.
   */
  datatype RecvState = RecvState(expected: nat, written: seq<byte>, done: bool)

  /** Before the first DATA packet: block 1 is expected and the file is empty. */
  const Start: RecvState := RecvState(1, [], false)

  /**
    The state invariant: every accepted block but the last was full, so the file holds
    exactly 512 bytes per acknowledged block, except that a final short block may follow.
   */
  predicate Consistent(s: RecvState)
  {
    && s.expected >= 1
    && if s.done then BlockSize * (s.expected - 1) <= |s.written| < BlockSize * s.expected
       else |s.written| == BlockSize * (s.expected - 1)
  }

  /** What one received datagram does to the loop. */
  datatype Reaction = Accept(next: RecvState, ack: Packet) | Drop | Abort

  /**
    One pass of the loop body for a datagram that arrived. The datagram lands in a
    516-byte buffer. A DATA packet for the expected block is written out and acknowledged
    (the client echoes the received block field, the server sends `block_num`; the two
    agree), and a short one ends the loop. Anything else is dropped without a reply,
    except that the server gives up on a packet that is not DATA at all.
   */
  function Step(role: Role, s: RecvState, d: Datagram): (r: Reaction)
    ensures r.Accept? <==> Opcode(d) == DATA && BlockField(d) == s.expected
    ensures r.Abort? <==> role == ServerWrq && Opcode(d) != DATA
    ensures r.Accept? ==>
      var p := Payload(Received(d, MaxPacket));
      && r.ack == Ack(BlockField(d))
      && r.next.written == s.written + p
      && p <= Payload(d) && |p| <= BlockSize
      && (|d| <= MaxPacket ==> p == Payload(d))
      && (|d| > MaxPacket ==> p == Payload(d)[..BlockSize])
      && (r.next.done <==> |p| < BlockSize)
      && r.next.expected == (if r.next.done then s.expected else s.expected + 1)
    ensures Consistent(s) && !s.done && r.Accept? ==> Consistent(r.next)
  {
    var g := Received(d, MaxPacket);
    ReceivedKeepsHeader(d, MaxPacket);
    if Opcode(g) != DATA then
      if role.ClientGet? then Drop else assert role == ServerWrq; Abort
    else if BlockField(g) != s.expected then Drop
    else
      var done := |g| < MaxPacket;
      var ack := if role == ClientGet then Ack(BlockField(g)) else Ack(Truncate16(s.expected));
      Accept(RecvState(if done then s.expected else s.expected + 1, s.written + Payload(g), done), ack)
  }

  /** The result of running the loop over some events: final state, ACKs sent, and how it ended. */
  datatype RecvRun = RecvRun(final: RecvState, acks: seq<Packet>, outcome: Outcome)

  /**
    The receive loop folded over the events. It leaves once done, gives up when
    `recvfrom` fails, and is still waiting if the events run out first.
   */
  function Run(role: Role, s: RecvState, events: seq<Event>): (r: RecvRun)
    ensures s.done ==> r == RecvRun(s, [], Complete)
    ensures r.outcome == Complete <==> r.final.done
    ensures r.outcome.Aborted? ==> r.outcome.cause == RecvFailed || (role == ServerWrq && r.outcome.cause == UnexpectedOpcode)
    ensures s.written <= r.final.written
    ensures forall i :: 0 <= i < |r.acks| ==> r.acks[i].Ack? && r.acks[i].block == s.expected + i
    ensures !s.done ==> r.final.expected + (if r.final.done then 1 else 0) == s.expected + |r.acks|
    ensures Consistent(s) ==> Consistent(r.final)
    ensures !s.done && |events| > 0 && events[0].Timeout? ==> r == RecvRun(s, [], Aborted(RecvFailed))
    decreases |events|
  {
    if s.done then RecvRun(s, [], Complete)
    else if |events| == 0 then RecvRun(s, [], Stalled)
    else
      match events[0]
      case Timeout => RecvRun(s, [], Aborted(RecvFailed))
      case Recv(d) =>
        match Step(role, s, d)
        case Drop => Run(role, s, events[1..])
        case Abort => RecvRun(s, [], Aborted(UnexpectedOpcode))
        case Accept(next, ack) =>
          var rest := Run(role, next, events[1..]);
          RecvRun(rest.final, [ack] + rest.acks, rest.outcome)
  }

  /**
    A datagram the loop drops leaves no trace: no write, no ACK, and the expected block
    stays as it was, so the run is the one without it.
   */
  lemma DroppedDatagramIsInvisible(role: Role, s: RecvState, d: Datagram, events: seq<Event>)
    requires !s.done && Step(role, s, d).Drop?
    ensures Run(role, s, [Recv(d)] + events) == Run(role, s, events)
  {
    assert ([Recv(d)] + events)[1..] == events;
  }

  /** An accepted datagram contributes its write and its ACK in front of whatever the rest of the run does. */
  lemma RunAfterAccept(role: Role, s: RecvState, d: Datagram, events: seq<Event>)
    requires !s.done && Step(role, s, d).Accept?
    ensures var later := Run(role, Step(role, s, d).next, events);
      Run(role, s, [Recv(d)] + events) == RecvRun(later.final, [Step(role, s, d).ack] + later.acks, later.outcome)
  {
    assert ([Recv(d)] + events)[1..] == events;
  }

  /** The equation `RunAfterStall` states, for one run and the events that follow it. */
  ghost predicate Continues(role: Role, s: RecvState, e1: seq<Event>, e2: seq<Event>)
  {
    var first := Run(role, s, e1);
    var later := Run(role, first.final, e2);
    Run(role, s, e1 + e2) == RecvRun(later.final, first.acks + later.acks, later.outcome)
  }

  /** A run with one more ACK in front. */
  function Prepend(ack: Packet, r: RecvRun): RecvRun
  {
    RecvRun(r.final, [ack] + r.acks, r.outcome)
  }

  /** One accepted datagram, unfolded: its ACK goes in front of what the loop does from the next state. */
  lemma AcceptUnfold(role: Role, s: RecvState, d: Datagram, next: RecvState, ack: Packet, tail: seq<Event>)
    requires !s.done && Step(role, s, d) == Accept(next, ack)
    ensures Run(role, s, [Recv(d)] + tail) == Prepend(ack, Run(role, next, tail))
  {
    assert ([Recv(d)] + tail)[1..] == tail;
  }

  /** An ACK put in front of a joined run is the ACK put in front of its first part, then the second part. */
  lemma PrependJoined(ack: Packet, rest: RecvRun, later: RecvRun, both: RecvRun)
    requires both == RecvRun(later.final, rest.acks + later.acks, later.outcome)
    ensures Prepend(ack, both) == RecvRun(later.final, Prepend(ack, rest).acks + later.acks, later.outcome)
  {
    assert [ack] + (rest.acks + later.acks) == ([ack] + rest.acks) + later.acks;
  }

  /** A dropped datagram in front of a run that continues gives a run that continues. */
  lemma ContinuesAfterDrop(role: Role, s: RecvState, d: Datagram, tail: seq<Event>, e2: seq<Event>)
    requires !s.done && Step(role, s, d).Drop?
    requires Continues(role, s, tail, e2)
    ensures Continues(role, s, [Recv(d)] + tail, e2)
  {
    assert ([Recv(d)] + tail) + e2 == [Recv(d)] + (tail + e2);
    DroppedDatagramIsInvisible(role, s, d, tail);
    DroppedDatagramIsInvisible(role, s, d, tail + e2);
  }

  /**
    A loop still waiting when one batch of events runs out picks up the next batch where
    it stopped: the run over both is the first run's ACKs followed by the second run's.
   */
  lemma {:induction false} RunAfterStall(role: Role, s: RecvState, e1: seq<Event>, e2: seq<Event>)
    requires Run(role, s, e1).outcome == Stalled
    ensures Continues(role, s, e1, e2)
    decreases |e1|
  {
    assert !s.done;
    if |e1| == 0 {
      assert e1 + e2 == e2;
    } else {
      var tail := e1[1..];
      match e1[0]
      case Timeout => assert false;
      case Recv(d) =>
        assert e1 == [Recv(d)] + tail;
        match Step(role, s, d)
        case Drop =>
          RunAfterStall(role, s, tail, e2);
          ContinuesAfterDrop(role, s, d, tail, e2);
        case Abort => assert false;
        case Accept(next, ack) =>
          RunAfterStall(role, next, tail, e2);
          assert e1 + e2 == [Recv(d)] + (tail + e2);
          AcceptUnfold(role, s, d, next, ack, tail);
          AcceptUnfold(role, s, d, next, ack, tail + e2);
          var rest := Run(role, next, tail);
          PrependJoined(ack, rest, Run(role, rest.final, e2), Run(role, next, tail + e2));
    }
  }

  /** Which datagrams are dropped: the client drops every mismatch, the server only DATA for another block. */
  lemma DropCases(role: Role, s: RecvState, d: Datagram)
    ensures Step(role, s, d).Drop? <==>
      if role == ClientGet then Opcode(d) != DATA || BlockField(d) != s.expected
      else Opcode(d) == DATA && BlockField(d) != s.expected
  {
  }

  /** The server gives up on a non-DATA packet with nothing written and nothing acknowledged. */
  lemma ServerAbortsOnOtherOpcode(s: RecvState, d: Datagram, events: seq<Event>)
    requires !s.done && Opcode(d) != DATA
    ensures Run(ServerWrq, s, [Recv(d)] + events) == RecvRun(s, [], Aborted(UnexpectedOpcode))
  {
  }

  /** receive_data, entered after the client has sent its RRQ. */
  function ReceiveData(events: seq<Event>): (r: RecvRun)
    ensures Consistent(r.final)
    ensures forall i :: 0 <= i < |r.acks| ==> r.acks[i].Ack? && r.acks[i].block == i + 1
    ensures r.outcome != Aborted(UnexpectedOpcode)
  {
    Run(ClientGet, Start, events)
  }

  /** handle_wrq: acknowledge block 0 to prime the client, then run the receive loop. */
  function HandleWrq(events: seq<Event>): (r: RecvRun)
    ensures |r.acks| >= 1 && r.acks[0] == Ack(0)
    ensures forall i :: 0 <= i < |r.acks| ==> r.acks[i].Ack? && r.acks[i].block == i
    ensures Consistent(r.final)
  {
    var run := Run(ServerWrq, Start, events);
    RecvRun(run.final, [Ack(0)] + run.acks, run.outcome)
  }
}

=== FILE: request.dfy ===
/**
  Read and write requests: how the client lays one out (send_request) and how the
  server's main loop takes one apart and picks a handler.
 */
module Request {
  import opened Bytes
  import opened Wire

  /** "octet" in ASCII: the only transfer mode the client ever asks for. */
  const Octet: seq<byte> := [0x6f, 0x63, 0x74, 0x65, 0x74]

  /** A C string's contents: no byte of it is NUL. */
  predicate NoNul(s: seq<byte>)
  {
    forall i :: 0 <= i < |s| ==> s[i] != 0
  }

  /** Some NUL occurs at or after offset `i`, so a C string starting there ends inside `d`. */
  predicate HasNulFrom(d: seq<byte>, i: nat)
  {
    exists k :: i <= k < |d| && d[k] == 0
  }

  /**
    send_request: a zero byte, the low byte of the opcode, the file name, NUL, "octet",
    NUL. The name is a C string, and the whole request must fit the 516-byte buffer.
   */
  function EncodeRequest(opcode: uint16, filename: seq<byte>): (r: seq<byte>)
    requires NoNul(filename)
    requires 2 + |filename| + 1 + |Octet| + 1 <= MaxPacket
    ensures |r| == 2 + |filename| + 1 + |Octet| + 1
    ensures Field16(r, 0) == opcode % 0x100
    ensures r[2..2 + |filename|] == filename && r[2 + |filename|] == 0
    ensures r[3 + |filename|..|r| - 1] == Octet && r[|r| - 1] == 0
  {
    [0, opcode % 0x100] + filename + [0] + Octet + [0]
  }

  /** The string a `char *` pointing at offset `i` denotes: everything up to the next NUL. */
  function CString(d: seq<byte>, i: nat): (s: seq<byte>)
    requires HasNulFrom(d, i)
    ensures i + |s| < |d| && d[i + |s|] == 0
    ensures d[i..i + |s|] == s && NoNul(s)
    decreases |d| - i
  {
    if d[i] == 0 then []
    else
      assert HasNulFrom(d, i + 1) by {
        var k :| i <= k < |d| && d[k] == 0;
        assert i + 1 <= k;
      }
      [d[i]] + CString(d, i + 1)
  }

  /** A NUL-free string followed by a NUL at offset `i` is the C string found there. */
  lemma {:induction false} CStringUnique(d: seq<byte>, i: nat, s: seq<byte>)
    requires i + |s| < |d| && d[i..i + |s|] == s && NoNul(s) && d[i + |s|] == 0
    ensures HasNulFrom(d, i) && CString(d, i) == s
    decreases |s|
  {
    assert HasNulFrom(d, i) by { assert d[i + |s|] == 0; }
    if |s| > 0 {
      assert d[i] == s[0] != 0;
      assert d[i + 1..i + 1 + |s[1..]|] == s[1..];
      CStringUnique(d, i + 1, s[1..]);
      assert s == [d[i]] + s[1..];
    }
  }

  /** What the server's main loop does with a request. */
  datatype Action = ServeRead(filename: seq<byte>) | ServeWrite(filename: seq<byte>) | Ignore(opcode: uint16)

  /**
    The server's request decoding: the opcode is bytes 0-1 read big-endian and the file
    name is the C string at offset 2. RRQ is served by handle_rrq, WRQ by handle_wrq,
    and any other opcode is only logged.
   */
  function Dispatch(d: seq<byte>): (a: Action)
    requires |d| >= 2 && HasNulFrom(d, 2)
    ensures a.ServeRead? <==> Field16(d, 0) == RRQ
    ensures a.ServeWrite? <==> Field16(d, 0) == WRQ
    ensures a.Ignore? ==> a.opcode == Field16(d, 0)
    ensures !a.Ignore? ==> 2 + |a.filename| < |d| && d[2..2 + |a.filename|] == a.filename
    ensures !a.Ignore? ==> NoNul(a.filename) && d[2 + |a.filename|] == 0
  {
    var opcode := Field16(d, 0);
    if opcode == RRQ then ServeRead(CString(d, 2))
    else if opcode == WRQ then ServeWrite(CString(d, 2))
    else Ignore(opcode)
  }

  /** The action a request carrying `opcode` and `filename` calls for. */
  function Intended(opcode: uint16, filename: seq<byte>): Action
  {
    if opcode == RRQ then ServeRead(filename)
    else if opcode == WRQ then ServeWrite(filename)
    else Ignore(opcode)
  }

  /**
    The server decodes what the client encodes: same opcode, same file name, for an
    opcode that fits the one byte the client writes.
   */
  lemma RequestRoundTrip(opcode: uint16, filename: seq<byte>)
    requires NoNul(filename) && 2 + |filename| + 1 + |Octet| + 1 <= MaxPacket
    requires opcode < 0x100
    ensures var r := EncodeRequest(opcode, filename);
      |r| >= 2 && HasNulFrom(r, 2) && Dispatch(r) == Intended(opcode, filename)
  {
    var r := EncodeRequest(opcode, filename);
    CStringUnique(r, 2, filename);
  }

  /**
    An opcode above 255 loses its high byte: send_request writes only `request[1]`. The
    client's main only ever passes RRQ or WRQ, so this is a property of the encoding, not
    a path the client takes.
   */
  lemma WideOpcodeIsTruncated(filename: seq<byte>)
    requires NoNul(filename) && 2 + |filename| + 1 + |Octet| + 1 <= MaxPacket
    ensures var r := EncodeRequest(0x101, filename);
      |r| >= 2 && HasNulFrom(r, 2) && Dispatch(r) == ServeRead(filename)
  {
    var r := EncodeRequest(0x101, filename);
    CStringUnique(r, 2, filename);
  }
}

=== FILE: sender.dfy ===
/**
  The sending side of a transfer: the client's "put" (send_data) and the server's answer
  to an RRQ (handle_rrq). Both read the file 512 bytes at a time, send one DATA packet
  per non-empty read with block numbers counting from 1, and wait for its ACK before
  reading on. Neither ever retransmits.
 */
module Sender {
  import opened Bytes
  import opened Wire
  import opened Chunks

  /** The DATA packets sent and how the loop ended. */
  datatype SendRun = SendRun(sent: seq<Packet>, outcome: Outcome)

  /**
    Whether an event is an acknowledgement of `block`: only the block field is read
    (the opcode never is), and it is compared with the unbounded counter.
   */
  predicate AcksBlock(e: Event, block: nat)
  {
    e.Recv? && BlockField(e.datagram) == block
  }

  /** None of the first `n` events acknowledges `block`. */
  predicate NoAckBefore(events: seq<Event>, block: nat, n: nat)
    requires n <= |events|
  {
    forall i :: 0 <= i < n ==> !AcksBlock(events[i], block)
  }

  /** Taking the first event off: no ACK among the first `n + 1` is no ACK first and none among the next `n`. */
  lemma NoAckShift(events: seq<Event>, block: nat, n: nat)
    requires n < |events|
    ensures NoAckBefore(events, block, n + 1) <==> !AcksBlock(events[0], block) && NoAckBefore(events[1..], block, n)
  {
  }

  /** How send_data's ACK wait ends: the retry counter it leaves behind and the events after it. */
  datatype Wait = Waited(retries: int, later: seq<Event>) | WaitStalled

  /**
    send_data's `while (retries-- > 0)` wait. The counter is compared and then decremented,
    even on the test that fails; a failed receive and an ACK for another block each use
    up one attempt; a matching ACK leaves the loop at once.
   */
  function AwaitAck(block: nat, retries: int, events: seq<Event>): (w: Wait)
    ensures retries <= |events| ==> w.Waited?
    ensures w.Waited? ==> w.retries < retries && |w.later| <= |events|
    ensures w.Waited? ==> w.later == events[|events| - |w.later|..]
    ensures w.Waited? && w.retries > 0 ==> |w.later| < |events| && AcksBlock(events[|events| - |w.later| - 1], block)
    ensures w.Waited? && retries > 0 ==>
      |events| - |w.later| == (if w.retries >= 0 then retries - w.retries else retries)
    ensures w.Waited? && retries > 0 ==>
      forall i :: 0 <= i < |events| - |w.later| - (if w.retries >= 0 then 1 else 0) ==> !AcksBlock(events[i], block)
    decreases |events|
  {
    if retries <= 0 then Waited(retries - 1, events)
    else if |events| == 0 then WaitStalled
    else if AcksBlock(events[0], block) then Waited(retries - 1, events[1..])
    else
      var w := AwaitAck(block, retries - 1, events[1..]);
      assert w.Waited? ==> events[1..][|events[1..]| - |w.later|..] == events[|events| - |w.later|..];
      w
  }

  /**
    The wait is left blocked in `recvfrom` exactly when the events run out first: there
    are fewer of them than attempts, and none of them is a matching ACK.
   */
  lemma {:induction false} AwaitAckStalls(block: nat, retries: int, events: seq<Event>)
    ensures AwaitAck(block, retries, events).WaitStalled?
      <==> retries > |events| && NoAckBefore(events, block, |events|)
    decreases |events|
  {
    if retries > 0 && |events| > 0 {
      NoAckShift(events, block, |events| - 1);
      if !AcksBlock(events[0], block) {
        AwaitAckStalls(block, retries - 1, events[1..]);
      }
    }
  }

  /**
    With `r` attempts and enough events, the wait ends with a positive counter exactly
    when one of the first `r - 1` events acknowledges the block: a match on the last
    attempt drives the counter to 0, which the caller reads as failure.
   */
  lemma {:induction false} AwaitAckSucceedsEarly(block: nat, r: int, events: seq<Event>)
    requires 0 < r <= |events|
    ensures AwaitAck(block, r, events).Waited?
    ensures AwaitAck(block, r, events).retries > 0 <==> exists i :: 0 <= i < r - 1 && AcksBlock(events[i], block)
  {
    var w := AwaitAck(block, r, events);
    var used := |events| - |w.later|;
    if w.retries > 0 {
      assert AcksBlock(events[used - 1], block);
    }
  }

  /** send_data's budget of 3: a matching ACK counts only on the first or second attempt. */
  lemma AckBudget(block: nat, events: seq<Event>)
    requires |events| >= 3
    ensures AwaitAck(block, 3, events).Waited?
    ensures AwaitAck(block, 3, events).retries > 0 <==> AcksBlock(events[0], block) || AcksBlock(events[1], block)
  {
    AwaitAckSucceedsEarly(block, 3, events);
  }

  /**
    send_data's main loop from the current file position `rest` with counter `block`:
    read, send DATA with the counter's low 16 bits, wait with 3 attempts, stop after a
    short block or at end of file.
   */
  function ClientLoop(rest: seq<byte>, block: nat, events: seq<Event>): (r: SendRun)
    ensures r.sent <= DataPackets(rest, block)
    ensures r.outcome == Complete ==> r.sent == DataPackets(rest, block)
    ensures r.outcome.Aborted? ==> r.outcome.cause == RetriesExhausted
    decreases |rest|
  {
    var chunk := Read(rest);
    if |chunk| == 0 then SendRun([], Complete)
    else
      DataPacketsUnfold(rest, block);
      var data := Data(Truncate16(block), chunk);
      match AwaitAck(block, 3, events)
      case WaitStalled => SendRun([data], Stalled)
      case Waited(retries, later) =>
        if retries <= 0 then SendRun([data], Aborted(RetriesExhausted))
        else if |chunk| < BlockSize then SendRun([data], Complete)
        else
          var next := ClientLoop(rest[|chunk|..], block + 1, later);
          SendRun([data] + next.sent, next.outcome)
  }

  /**
    send_data, entered after the client has sent its WRQ: nothing is sent before a first
    reply carrying block 0 (any opcode), and any other block number ends the transfer.
   */
  function SendData(file: seq<byte>, events: seq<Event>): (r: SendRun)
    ensures r.sent <= DataPackets(file, 1)
    ensures r.outcome == Complete ==> r.sent == DataPackets(file, 1)
    ensures |r.sent| > 0 ==> |events| > 0 && AcksBlock(events[0], 0)
    ensures r.outcome.Aborted? ==> r.outcome.cause in {RecvFailed, BadHandshake, RetriesExhausted}
    ensures |events| > 0 && events[0].Timeout? ==> r == SendRun([], Aborted(RecvFailed))
    ensures |events| > 0 && events[0].Recv? && BlockField(events[0].datagram) != 0 ==>
      r == SendRun([], Aborted(BadHandshake))
    ensures |events| == 0 ==> r == SendRun([], Stalled)
  {
    if |events| == 0 then SendRun([], Stalled)
    else
      match events[0]
      case Timeout => SendRun([], Aborted(RecvFailed))
      case Recv(d) =>
        if BlockField(d) != 0 then SendRun([], Aborted(BadHandshake))
        else ClientLoop(file, 1, events[1..])
  }

  /**
    handle_rrq's loop: read, send DATA, take exactly one reply, and abort the transfer
    if it is not the ACK of this block.
   */
  function ServerLoop(rest: seq<byte>, block: nat, events: seq<Event>): (r: SendRun)
    ensures r.sent <= DataPackets(rest, block)
    ensures r.outcome == Complete ==> r.sent == DataPackets(rest, block)
    ensures r.outcome.Aborted? ==> r.outcome.cause in {RecvFailed, UnexpectedAck}
    ensures |r.sent| <= |events| + 1
    ensures |rest| > 0 && |events| > 0 && events[0].Timeout? ==>
      r == SendRun([Data(Truncate16(block), Read(rest))], Aborted(RecvFailed))
    decreases |rest|
  {
    var chunk := Read(rest);
    if |chunk| == 0 then SendRun([], Complete)
    else
      DataPacketsUnfold(rest, block);
      var data := Data(Truncate16(block), chunk);
      if |events| == 0 then SendRun([data], Stalled)
      else
        match events[0]
        case Timeout => SendRun([data], Aborted(RecvFailed))
        case Recv(d) =>
          if BlockField(d) != block then SendRun([data], Aborted(UnexpectedAck))
          else if |chunk| < BlockSize then SendRun([data], Complete)
          else
            var next := ServerLoop(rest[|chunk|..], block + 1, events[1..]);
            SendRun([data] + next.sent, next.outcome)
  }

  /** handle_rrq after the file has been opened: block numbers start at 1 and there is no priming ACK. */
  function HandleRrq(file: seq<byte>, events: seq<Event>): (r: SendRun)
    ensures r.sent <= DataPackets(file, 1)
    ensures r.outcome == Complete ==> r.sent == DataPackets(file, 1)
    ensures r.outcome.Aborted? ==> r.outcome.cause in {RecvFailed, UnexpectedAck}
  {
    ServerLoop(file, 1, events)
  }

  /**
    No matching ACK on the first two attempts (three timeouts, say) ends the transfer
    after one DATA packet: whatever the third attempt brings, the counter ends at 0 or
    below and send_data gives up.
   */
  lemma RetriesExhaustedAborts(rest: seq<byte>, block: nat, events: seq<Event>)
    requires |rest| > 0 && |events| >= 3
    requires !AcksBlock(events[0], block) && !AcksBlock(events[1], block)
    ensures ClientLoop(rest, block, events)
      == SendRun([Data(Truncate16(block), Read(rest))], Aborted(RetriesExhausted))
  {
    AckBudget(block, events);
  }

  /** A correct ACK on the third attempt still fails the transfer, after one DATA packet. */
  lemma ThirdAttemptFails(rest: seq<byte>, block: nat, e0: Event, e1: Event, e2: Event, events: seq<Event>)
    requires |rest| > 0
    requires !AcksBlock(e0, block) && !AcksBlock(e1, block) && AcksBlock(e2, block)
    ensures ClientLoop(rest, block, [e0, e1, e2] + events)
      == SendRun([Data(Truncate16(block), Read(rest))], Aborted(RetriesExhausted))
  {
    RetriesExhaustedAborts(rest, block, [e0, e1, e2] + events);
  }

  /** A missed first attempt followed by the matching ACK costs nothing: the run is the one with the ACK first. */
  lemma SecondAttemptSucceeds(rest: seq<byte>, block: nat, e0: Event, e1: Event, events: seq<Event>)
    requires |rest| > 0
    requires !AcksBlock(e0, block) && AcksBlock(e1, block)
    ensures ClientLoop(rest, block, [e0, e1] + events) == ClientLoop(rest, block, [e1] + events)
  {
    var es := [e0, e1] + events;
    var es' := [e1] + events;
    assert es[1..] == es' && es'[1..] == events;
    assert AwaitAck(block, 2, es') == Waited(1, events);
    assert AwaitAck(block, 3, es) == Waited(1, events);
    assert AwaitAck(block, 3, es') == Waited(2, events);
  }

  /** On the server, any ACK for another block ends the transfer right after the DATA it answers. */
  lemma ServerAbortsOnOtherAck(rest: seq<byte>, block: nat, d: Datagram, events: seq<Event>)
    requires |rest| > 0 && BlockField(d) != block
    ensures ServerLoop(rest, block, [Recv(d)] + events)
      == SendRun([Data(Truncate16(block), Read(rest))], Aborted(UnexpectedAck))
  {
  }

  /** The handshake reads only the block field: a DATA packet for block 0 starts the upload as well as ACK 0. */
  lemma HandshakeIgnoresOpcode(file: seq<byte>, d1: Datagram, d2: Datagram, events: seq<Event>)
    requires BlockField(d1) == BlockField(d2)
    ensures SendData(file, [Recv(d1)] + events) == SendData(file, [Recv(d2)] + events)
  {
    assert ([Recv(d1)] + events)[1..] == events == ([Recv(d2)] + events)[1..];
  }

  /** An empty file: no DATA at all, on either side. */
  lemma EmptyFileSendsNothing(ack0: Datagram, events: seq<Event>)
    requires BlockField(ack0) == 0
    ensures SendData([], [Recv(ack0)] + events) == SendRun([], Complete)
    ensures HandleRrq([], events) == SendRun([], Complete)
  {
  }

  /** The ACKs a loss-free receiver sends for blocks `first` .. `first + n - 1`. */
  function AckRange(first: nat, n: nat): (acks: seq<Packet>)
    requires first + n <= 0x1_0000
    ensures |acks| == n
    ensures forall i :: 0 <= i < n ==> acks[i] == Ack(first + i)
  {
    seq(n, i requires 0 <= i < n => Ack(first + i))
  }

  lemma AckRangeUnfold(first: nat, n: nat)
    requires 0 < n && first + n <= 0x1_0000
    ensures AckRange(first, n) == [Ack(first)] + AckRange(first + 1, n - 1)
  {
  }

  /** With every block acknowledged at once, handle_rrq sends each block once and completes. */
  lemma {:induction false} ServerSendsAll(rest: seq<byte>, block: nat)
    requires block + ChunkCount(|rest|) <= 0x1_0000
    ensures ServerLoop(rest, block, Deliver(AckRange(block, ChunkCount(|rest|))))
      == SendRun(DataPackets(rest, block), Complete)
    decreases |rest|
  {
    var n := ChunkCount(|rest|);
    var chunk := Read(rest);
    if |chunk| > 0 {
      ChunkCountBounds(|rest|);
      AckRangeUnfold(block, n);
      DataPacketsUnfold(rest, block);
      var events := Deliver(AckRange(block, n));
      assert events[0] == Recv(Encode(Ack(block)));
      if |chunk| == BlockSize {
        var tail := rest[BlockSize..];
        assert ChunkCount(|tail|) == n - 1 by {
          if |rest| > BlockSize { ChunkShift(rest, 0); }
        }
        assert events[1..] == Deliver(AckRange(block + 1, n - 1));
        ServerSendsAll(tail, block + 1);
      }
    }
  }

  /** With every block acknowledged on the first attempt, send_data's loop sends each block once and completes. */
  lemma {:induction false} ClientSendsAll(rest: seq<byte>, block: nat)
    requires block + ChunkCount(|rest|) <= 0x1_0000
    ensures ClientLoop(rest, block, Deliver(AckRange(block, ChunkCount(|rest|))))
      == SendRun(DataPackets(rest, block), Complete)
    decreases |rest|
  {
    var n := ChunkCount(|rest|);
    var chunk := Read(rest);
    if |chunk| > 0 {
      ChunkCountBounds(|rest|);
      AckRangeUnfold(block, n);
      DataPacketsUnfold(rest, block);
      var events := Deliver(AckRange(block, n));
      assert events[0] == Recv(Encode(Ack(block)));
      assert AwaitAck(block, 3, events) == Waited(2, events[1..]);
      var data := Data(Truncate16(block), chunk);
      if |chunk| == BlockSize {
        var tail := rest[BlockSize..];
        assert ChunkCount(|tail|) == n - 1 by {
          if |rest| > BlockSize { ChunkShift(rest, 0); }
        }
        assert events[1..] == Deliver(AckRange(block + 1, n - 1));
        ClientSendsAll(tail, block + 1);
        var next := ClientLoop(tail, block + 1, events[1..]);
        assert ClientLoop(rest, block, events) == SendRun([data] + next.sent, next.outcome);
      } else {
        assert ClientLoop(rest, block, events) == SendRun([data], Complete);
      }
    }
  }
}

=== FILE: server.dfy ===
/**
  One pass of the server's main loop: decode the request that arrived, then run the
  handler it selects to the end. Files live in a map from name to contents.
 */
module Server {
  import opened Bytes
  import opened Wire
  import opened Request
  import opened Chunks
  import opened Receiver
  import opened Sender

  /** What serving one request produced: the files afterwards, the packets sent, the outcome; or no reply at all. */
  datatype Served =
    | Served(files: map<seq<byte>, seq<byte>>, sent: seq<Packet>, outcome: Outcome)
    | NoReply(opcode: uint16)

  /**
    RRQ: open the named file (failing if it does not exist) and send it with handle_rrq.
    WRQ: create or truncate the named file and fill it with handle_wrq; the file's contents
    are the bytes handed to `fwrite`, even when the transfer is cut short (a handler left
    waiting never closes the file). Any other opcode: log and go on.
   */
  function Serve(request: seq<byte>, files: map<seq<byte>, seq<byte>>, events: seq<Event>): (r: Served)
    requires |request| >= 2 && HasNulFrom(request, 2)
    ensures r.NoReply? <==> Field16(request, 0) !in {RRQ, WRQ}
    ensures r.NoReply? ==> r.opcode == Field16(request, 0)
    ensures Field16(request, 0) == RRQ ==>
      var name := CString(request, 2);
      && r.Served? && r.files == files
      && (name !in files ==> r == Served(files, [], Aborted(OpenFailed)))
      && (name in files ==> r.sent <= DataPackets(files[name], 1))
      && (name in files && r.outcome == Complete ==> r.sent == DataPackets(files[name], 1))
    ensures Field16(request, 0) == WRQ ==>
      var name := CString(request, 2);
      && r.Served? && name in r.files && r.files.Keys == files.Keys + {name}
      && (forall k :: k in files && k != name ==> r.files[k] == files[k])
      && |r.sent| >= 1 && r.sent[0] == Ack(0)
      && |r.files[name]| >= BlockSize * (|r.sent| - 2)
  {
    match Dispatch(request)
    case ServeRead(name) =>
      if name !in files then Served(files, [], Aborted(OpenFailed))
      else
        var run := HandleRrq(files[name], events);
        Served(files, run.sent, run.outcome)
    case ServeWrite(name) =>
      var run := HandleWrq(events);
      Served(files[name := run.final.written], run.acks, run.outcome)
    case Ignore(opcode) => NoReply(opcode)
  }
}

=== FILE: wire.dfy ===
/**
  The transfer packets (DATA and ACK, section 5 of RFC 1350) as the two programs build
  and read them, and the abstract network both transfer loops are folded over.
 */
module Wire {
  import opened Bytes

  const RRQ: uint16 := 1
  const WRQ: uint16 := 2
  const DATA: uint16 := 3
  const ACK: uint16 := 4

  /** A packet one of the programs sends during a transfer. */
  datatype Packet = Data(block: uint16, payload: seq<byte>) | Ack(block: uint16)

  /**
    A datagram as `recvfrom` hands it over. Both programs read the 4-byte header of
    whatever arrives without checking its length, so only datagrams that have one are
    in scope.
   */
  type Datagram = d: seq<byte> | |d| >= 4 witness [0, 0, 0, 0]

  /** The opcode field, bytes 0-1. */
  function Opcode(d: Datagram): uint16
  {
    Field16(d, 0)
  }

  /** The block field, bytes 2-3. */
  function BlockField(d: Datagram): uint16
  {
    Field16(d, 2)
  }

  /** What follows the header of a DATA packet. */
  function Payload(d: Datagram): seq<byte>
  {
    d[4..]
  }

  /** The wire form: opcode, block, and for DATA the payload (a `struct` sent as `bytes_read + 4` bytes). */
  function Encode(p: Packet): (d: Datagram)
    ensures Opcode(d) == (if p.Data? then DATA else ACK)
    ensures BlockField(d) == p.block
    ensures p.Data? ==> Payload(d) == p.payload
    ensures p.Ack? ==> |d| == 4
  {
    var d := U16(if p.Data? then DATA else ACK) + U16(p.block) + (if p.Data? then p.payload else []);
    assert d[..2] == U16(if p.Data? then DATA else ACK);
    assert d[2..4] == U16(p.block);
    d
  }

  /** Distinct packets never share a wire form. */
  lemma EncodeInjective(p: Packet, q: Packet)
    requires Encode(p) == Encode(q)
    ensures p == q
  {
    var d := Encode(p);
    assert Opcode(d) == Opcode(Encode(q));
    if p.Data? {
      assert q.Data?;
      assert p.payload == Payload(d) == q.payload;
    }
  }

  /**
    `recvfrom` into a buffer of `cap` bytes: a longer datagram is cut to the buffer's
    size, and the length it reports is the cut length.
   */
  function Received(d: Datagram, cap: nat): (r: Datagram)
    requires cap >= 4
    ensures |r| <= cap && r <= d
    ensures |d| <= cap ==> r == d
    ensures |d| > cap ==> |r| == cap
  {
    if |d| <= cap then d else d[..cap]
  }

  /** Cutting a datagram to a buffer of at least 4 bytes keeps its header. */
  lemma ReceivedKeepsHeader(d: Datagram, cap: nat)
    requires cap >= 4
    ensures Opcode(Received(d, cap)) == Opcode(d)
    ensures BlockField(Received(d, cap)) == BlockField(d)
    ensures Payload(Received(d, cap)) <= Payload(d)
  {
    var r := Received(d, cap);
    assert r[..4] == d[..4];
    assert r[0] == d[0] && r[1] == d[1] && r[2] == d[2] && r[3] == d[3];
  }

  /** One step of the network as a transfer loop sees it: a datagram arrives, or `recvfrom` fails (a timeout). */
  datatype Event = Recv(datagram: Datagram) | Timeout

  /** A loss-free channel: every packet arrives once, in order. */
  function Deliver(ps: seq<Packet>): (es: seq<Event>)
    ensures |es| == |ps|
    ensures forall i :: 0 <= i < |ps| ==> es[i] == Recv(Encode(ps[i]))
  {
    if |ps| == 0 then [] else [Recv(Encode(ps[0]))] + Deliver(ps[1..])
  }

  /** Why a transfer loop gave up. */
  datatype Cause =
    | RecvFailed        // recvfrom returned an error (in send_data this includes its 2-second timeout)
    | BadHandshake      // send_data: the first reply did not carry block 0
    | RetriesExhausted  // send_data: no accepted ACK within the retry budget
    | UnexpectedAck     // handle_rrq: an ACK for another block
    | UnexpectedOpcode  // handle_wrq: a packet that is not DATA
    | OpenFailed        // handle_rrq: the requested file could not be opened

  /** How a transfer loop ends: it finished, it is still waiting when the events run out, or it gave up. */
  datatype Outcome = Complete | Stalled | Aborted(cause: Cause)
}
